=== FILE: README.md ===
# Flash-sale order service: a Dafny model

This project models the decision logic of the order service of a flash-sale
marketplace, in Dafny.

- **Create.** `CreateOrder` fans out one stock check and one price lookup per line
  item. It drains the two result channels pairwise, rejecting the order at the
  first failing pair. It then writes the order and its line items in one
  transaction and publishes an `order.created.<id>` event.
- **Update.** `UpdateOrder` re-checks stock when the status is `"Paid"`, writes the
  order and publishes `order.updated.<id>`.
- **Cancel.** `CancelOrder` reads the order, sets its status to `"cancelled"`,
  writes it and publishes `order.cancelled.<id>`.

The project also models two side parts: the older in-memory order repository
(a map from ID to order) and the shard router, which picks a shard with Go's
truncating `%`.

Collaborators become inputs.

- **Gateway results in `CreateOrder`.** The stock and pricing results are the
  contents of the two channels, in arrival order. The `Fanout` module builds
  those contents from per-item gateway replies and an arbitrary arrival order.
- **Other collaborators.** The transaction, the repository and the event writer
  are replaced by scripted replies.

Every operation returns what the Go code returns, plus the trace of calls it
made. This lets "no write" and "no publish" be stated.

Modules: `Prelude` (Go integers, nil, `(T, error)`), `Decimal` (`%d`), `Entity`,
`Errors`, `Events`, `Gateways`, `Validation` (the drain loop), `Fanout` (the
goroutines), `OrderService`, `Scenarios`, `Repository`, `Sharding`.

### Behaviour worth knowing

- **Total price.** The drain loop adds a pricing result's final price once for
  each line item that has the same product ID, and ignores the quantity. With
  10 × 2 at 50 and 20 × 1 at 30 it accumulates 50 + 30 = 80
  (`Scenarios.CreateTwoItems`). The total is never stored on the order. A
  product that appears on two line items and is priced twice is counted four
  times (`Validation.DuplicateProductCountedTwice`).
- **Line-item pricing is lost.** The inner loop binds a copy of each line item.
  The markup, discount and final price written to the copy never reach the
  order, so the order is stored and returned with the line items it came in with.
- **Pairing by position.** Availability and pricing results are paired by
  arrival position. A pricing error names the pricing result's product, not the
  product of the availability result it was paired with.
- **Case-sensitive re-check.** The stock re-check runs only for the exact status
  `"Paid"`. An order with status `"paid"` is not re-checked.
- **Status.** The interface comments (internal/service/order_service.go:17-22,
  43) say that create gives an order the status "created" and that update sets
  it to "updated". Neither operation sets a status: create stores and returns
  the caller's status, and update writes the caller's order as given. Only
  cancel sets a status, "cancelled".
- **Cancel accepts any order.** Cancel does not look at the current status, and
  update accepts any status, so a cancelled order can be cancelled again or
  updated.

## Model

| member | source | states |
|---|---|---|
| Validation.Validate | internal/service/order_service.go:89-104 | N (availability, pricing) pairs are available, paired by position, and reading stops at the first failing pair. The order is rejected at the first failing position with that pair's error, which is always a validation rejection. It passes exactly when every pair passes, and then the total is the priced total of all pricing results. |
| Validation.ValidateFrom | internal/service/order_service.go:89-113 | From position i on: a rejection is at the first failing position at or after i; a pass means every pair from i on passed and the total grew by the remaining results' contributions. |
| Validation.ValidateOrder | internal/service/order_service.go:89-114 | The literal outer loop, with its early returns, computes the same outcome as `Validate`. |
| Validation.AddMatchingPrices | internal/service/order_service.go:106-113 | The inner scan adds the final price once for every line item with the priced product ID. The items themselves are not changed, because the loop variable is a copy. |
| Validation.MatchCount | internal/service/order_service.go:106-107 | The number of matching line items is at most the item count, and is zero exactly when no item carries the product ID. |
| Validation.AvailabilityFirst | internal/service/order_service.go:93-104 | A failed availability result decides the error whatever the pricing result is, and names the availability result's product. The pricing error is consulted only after both availability checks pass. |
| Validation.DistinctProductsTotal | internal/service/order_service.go:106-113 | When every priced product matches exactly one line item, the total is the sum of the quoted final prices. |
| Validation.DuplicateProductCountedTwice | internal/service/order_service.go:106-113 | Two items for the same product priced twice accumulate four times the price. |
| Validation.PairedByPosition | internal/service/order_service.go:89-104 | A pricing failure for product 20 that arrives first is paired with product 10's availability result, and the order is rejected naming product 20. |
| Gateways.CheckProductStock | internal/service/order_service.go:231-258 | Available exactly when the reply is a stock value with stock >= quantity. There is an error exactly when the gateway failed. |
| Fanout.AvailabilityMessage | internal/service/order_service.go:61-69 | The message carries the line item's product ID, is available exactly when the stock suffices, and carries the gateway's error. |
| Fanout.PricingFailurePanics | internal/service/order_service.go:71-80 | As written, every pricing-gateway failure reaches a nil dereference. On success the message equals the corrected one. |
| Fanout.PricingMessage | internal/service/order_service.go:71-80 | Corrected producer: the line item's product ID, the gateway's error on failure, and the quoted final price on success. |
| Fanout.PricingFailureReported | internal/service/order_service.go:101-104 | With the corrected producer, a pricing failure after passing availability checks is reported as a pricing error for that item's product. |
| Fanout.AvailabilityStream | internal/service/order_service.go:57-69 | The availability channel holds one message per arrival slot, the k-th being the message of the item that arrived k-th. |
| Fanout.PricingStream | internal/service/order_service.go:58-80 | The pricing channel holds one message per arrival slot, the k-th being the message of the item that arrived k-th. |
| Fanout.PassesIffAllRepliesGood | internal/service/order_service.go:89-104 | Whatever the arrival orders, validation passes exactly when every item's stock suffices and every price lookup succeeded. |
| Fanout.AllGoodPairsPass | internal/service/order_service.go:89-104 | Good replies for every item make every pair pass. |
| Fanout.PassingPairsAllGood | internal/service/order_service.go:89-104 | If every pair passes, every item's replies were good. |
| Fanout.RejectionNamesFailingItem | internal/service/order_service.go:93-104 | Every rejection names a line item's product whose own stock or price reply failed in the way the error says. |
| Decimal.FormatIntRoundTrip | internal/service/order_service.go:290 | Parsing the `%d` rendering of any integer gives it back. |
| Decimal.FormatIntInjective | internal/service/order_service.go:290 | Distinct IDs render differently. |
| Events.EventKey | internal/service/order_service.go:290 | The key starts with `order.<kw>.` for its own transition and for no other, and the text after that prefix reads back as the order ID. |
| Events.EventKeyRoundTrip | internal/service/order_service.go:290 | `order.<kw>.<id>` parses back to its transition and ID. |
| Events.EventKeyInjective | internal/service/order_service.go:290 | Two keys are equal only for the same transition and the same order ID. |
| Errors.Message | internal/service/order_service.go:95-225 | The texts the service's errors carry. A wrapped error's text ends the message unchanged, and a failed transaction's error is returned without wrapping (line 135). |
| Errors.RejectionMessageInjective | internal/service/order_service.go:95-103 | The three line-item rejection messages can be told apart, and each determines its product ID and its cause. |
| OrderService.Dispatch | internal/service/order_service.go:61-81 | Exactly one stock check (with the item's quantity) and one price lookup per line item, and nothing else. |
| OrderService.MapOrderRequestWithOrderID | internal/service/order_service.go:303-310 | Same length and order as the input. Each element has `OrderID` equal to the order's ID and is otherwise identical to the input item. |
| OrderService.Transaction | internal/service/order_service.go:116-136 | All or nothing: it ends in Commit exactly when the header insert, the item insert and the commit all succeed, and otherwise in Rollback with the failing step's error. A failed header insert stops before the line-item insert. The committed items are stamped with the assigned ID, and the stored order is the input with that ID. |
| OrderService.CreateOrder | internal/service/order_service.go:52-145 | The gateway calls are always made first. On a validation rejection nothing else happens and that error is returned. After validation passes, a failed transaction returns the transaction's error unchanged, and a failed publish returns the "created" publish error. After a successful transaction the trace holds the header insert and the insert of the line items stamped with the assigned ID. On success the order comes back as given, with only its ID set to the assigned one. |
| OrderService.CreateSequencing | internal/service/order_service.go:116-144 | Commits exactly when validation passes and the transaction succeeds. Publishes exactly when it committed, right after the commit, keyed `order.created.<id>`. Succeeds exactly when that publish succeeds. |
| OrderService.CreatePublishesOnce | internal/service/order_service.go:116-144 | No step before the last one publishes: the `created` event is sent at most once, after the gateway calls, the inserts and the commit. |
| OrderService.StockError | internal/service/order_service.go:160-170 | An item passes the re-check exactly when the gateway answered with enough stock. |
| OrderService.FirstStockFailure | internal/service/order_service.go:160-172 | None exactly when every item passes. Otherwise it returns the first failing item at or after i, with its error. |
| OrderService.StockChecks | internal/service/order_service.go:160-161 | One stock check per item, in slice order. |
| OrderService.Recheck | internal/service/order_service.go:159-172 | No checks unless the status is exactly "Paid". With "Paid" there is no error exactly when every item's reply shows enough stock, and then every item is checked once in order. On an error, the checks run up to and including the last one made, that item's reply gives the error, and every item before it passed. |
| OrderService.UpdateOrder | internal/service/order_service.go:155-191 | Without "Paid" the first call is the write. With "Paid" and every item passing, all the stock checks come first, in order, then the write. With "Paid" and a failing item, the outcome is that item's error after exactly the checks up to it. A failed write returns "failed to update order", a nil order is reported as not found, and a failed publish returns the "updated" publish error. Success returns the repository's order. |
| OrderService.UpdateSequencing | internal/service/order_service.go:159-190 | Attempts the repository write once, whatever that write then returns, exactly when the re-check is skipped or passes. Publishes exactly when the repository returned an order, once and as the step right after the write (the trace is the checks, the write and the publish), keyed `order.updated.<id>`. Succeeds exactly when that publish succeeds. |
| OrderService.CancelOrder | internal/service/order_service.go:201-229 | Reads first. A read error or a missing order returns the matching error after the read alone. Otherwise the next call writes the order with status "cancelled". A failed write returns "failed to cancel order". A nil order from the write is reported as not found, after the read and the write only. A failed publish returns the "cancelled" publish error. Success returns the repository's order. |
| OrderService.CancelSequencing | internal/service/order_service.go:204-228 | Attempts the repository write exactly once, whatever it then returns, and only when an order was read. Publishes exactly when the write returned an order, once and as the third and last step after the read and the write, keyed `order.cancelled.<id>`. Succeeds exactly when that publish succeeds. |
| OrderService.CancelNilWritePanics | internal/service/order_service.go:215-222 | The code as written panics exactly when a found order's write returns nil. Otherwise it behaves like the corrected `CancelOrder`. |
| Scenarios.CreatedKey | internal/service/order_service.go:290 | The key for created order 42 is `order.created.42`. |
| Scenarios.CreateTwoItems | internal/service/order_service.go:89-145 | With stock 5 and 1 and prices 50 and 30, the order is stored as ID 42 and `order.created.42` is published last. The accumulated total is 80, and the returned total is the caller's. |
| Scenarios.CreateOutOfStock | internal/service/order_service.go:97-100 | With product 20 out of stock, the error is "insufficient stock for product ID 20" and nothing is written or published. |
| Scenarios.PaidIsCaseSensitive | internal/service/order_service.go:159 | A "paid" order with no stock is written. A "Paid" one is refused at its first item after one check. |
| Repository.InitialOrders | internal/repository/order.go:63-80 | The seeded store holds exactly IDs 1 and 2, each stored under its own ID with status "created" and no line items. |
| Repository.GetOrderByID | internal/repository/order.go:90-96 | Never an error. An order is returned exactly when the ID is present, and it is the stored one. |
| Repository.CreateOrder | internal/repository/order.go:106-110 | ID = number of orders + 1. The order is stored under that ID, other entries are kept, and there is never an error. The store grows by one exactly when that ID was free. |
| Repository.UpdateOrder | internal/repository/order.go:120-123 | Upsert under the order's ID; other entries are kept, and there is never an error. |
| Repository.DeleteOrder | internal/repository/order.go:132-139 | Removes the ID if present and is a no-op otherwise; other entries are kept, and there is never an error. |
| Repository.OperationsKeepWellKeyed | internal/repository/order.go:63-139 | Every operation keeps each order stored under its own ID. |
| Repository.ReadYourWrites | internal/repository/order.go:90-139 | A get after a create, update or delete sees that write. An update leaves other IDs' reads unchanged. |
| Repository.Idempotent | internal/repository/order.go:120-139 | Updating twice equals updating once, and deleting twice equals deleting once. |
| Repository.CreateKeepsDense | internal/repository/order.go:106-110 | While the IDs are exactly 1..n, create picks a free ID, the store grows by one and stays dense. |
| Repository.InitialOrdersDense | internal/repository/order.go:63-80 | The seeded IDs are exactly 1..2. |
| Repository.CreateAfterDeleteOverwrites | internal/repository/order.go:106-139 | After deleting order 1 from the seeded store, create assigns ID 2 and overwrites order 2 without growing the store. |
| Sharding.NewShardRouter | internal/sharding/sharding.go:7-11 | The shard count is stored unchanged. |
| Sharding.RouterUnvalidated | internal/sharding/sharding.go:7-15 | Zero or negative counts are accepted. With -4 shards, keys 5 and -5 go to shards 1 and -1. |
| Sharding.TruncMod | internal/sharding/sharding.go:14 | Go's `%`: it satisfies quotient × divisor + remainder = dividend, the remainder is smaller than the divisor in size, and its sign follows the dividend. |
| Sharding.TruncModUnique | internal/sharding/sharding.go:14 | Those properties determine the quotient and remainder uniquely. |
| Sharding.GetShard | internal/sharding/sharding.go:13-15 | The shard is Go's `key % NumShards`. With a positive count it lies in [0, NumShards) for non-negative keys and in (-NumShards, 0] for negative keys. A zero count is excluded, because it is a division-by-zero panic. |
| Sharding.ShardPeriodic | internal/sharding/sharding.go:14 | Non-negative keys one shard count apart go to the same shard. |
| Sharding.ShardOfNegatedKey | internal/sharding/sharding.go:14 | Negating the key negates the shard. |
| Sharding.NegativeKeyShard | internal/sharding/sharding.go:14 | With 4 shards, key -5 goes to shard -1, where Euclidean `%` gives 3. |

## Findings

| source | as written | input that shows it | evidently intended | confidence | as-written member | corrected member |
|---|---|---|---|---|---|---|
| internal/service/order_service.go:71-80 | The pricing goroutine reads `pricing.FinalPrice`, but on failure `getPricing` returns a nil record (lines 260-281). The error branch at lines 101-104 can never run. | Any pricing-gateway failure, such as a non-200 status: the goroutine panics and the process exits. | Send the error with zero price fields, so that the drain loop reports "failed to get pricing for product ID n". | high; not executed | Fanout.PricingMessageAsWritten, exhibited by Fanout.PricingFailurePanics | Fanout.PricingMessage, with Fanout.PricingFailureReported; the channel streams use it |
| internal/service/order_service.go:216-222 | `CancelOrder` has no nil check on the order that the repository update returns. Building the event key then reads `order.ID` of nil (line 290). | The read returns an order, then the repository update returns `(nil, nil)`. | Report "order with ID n not found", as `UpdateOrder` does (lines 179-182). | medium (the repository implementation is not part of this model); not executed | OrderService.CancelOrderAsWritten, exhibited by OrderService.CancelNilWritePanics | OrderService.CancelOrder (its contract states the not-found outcome), with OrderService.CancelSequencing |

## Left out

- HTTP calls, status-code checks and JSON decoding in `checkProductStock` and `getPricing` are left out. Each gateway is reduced to its reply: a stock value or price record, or an error. Only the `stock >= quantity` decision is kept.
- Goroutines, channels and scheduling are left out, including the capture of `&productRequest` in the launch loop. The channels' contents are parameters. An arrival order stands in for scheduling, and the order is required to deliver each item's message exactly once.
- The gorm transaction (`WithTransaction`, `CreateOrderTx`, `CreateOrderRequestTx`) is not part of this model. Its three steps are scripted replies, and the error a failed commit returns is taken as passed through unchanged.
- The service-side repository interface used by update and cancel is not part of this model either. Its `GetOrderByID` and `UpdateOrder` are scripted replies.
- Kafka `WriteMessages` and `json.Marshal` are left out. A publish is the key together with the order as payload, and its outcome is a scripted error or nil.
- Logging has no behavioural effect and is left out.
- `NewOrderService` and `NewOrderRepository` only wire fields together and are left out.
- The HTTP handlers, routes, `main` and configuration are left out.
- Prices are `real`, so float64 rounding is not modelled.
- Aliasing of stored orders is not modelled. The Go repository stores references and `CreateOrder` writes the ID into the caller's order; the model passes values and returns the updated order.
- The in-memory repository's unsynchronised map is left out as a concurrency issue.
- The gateway replies for the stock re-check are given for every line item. Replies after the first failing item are unused.
- Repository.CreateOrder: requires fewer than 2^63 - 1 stored orders, so that `int64(len(orders) + 1)` cannot overflow. A map that large cannot exist.
- Sharding.GetShard: Go's `int` is taken to be 64 bits wide, so the conversions `int64(NumShards)` and `int(...)` do not change any value.

=== FILE: decimal.dfy ===
/** Go's `%d` verb for integers, and the parser that inverts it. */
module Decimal {
  import opened Prelude

  predicate IsDigit(c: char) {
    '0' <= c <= '9'
  }

  function DigitChar(d: nat): (c: char)
    requires d < 10
    ensures IsDigit(c)
  {
    (d + '0' as int) as char
  }

  function DigitValue(c: char): (d: nat)
    requires IsDigit(c)
    ensures d < 10 && DigitChar(d) == c
  {
    c as int - '0' as int
  }

  /** The decimal digits of `n`, most significant first, without leading zeros. */
  function NatDigits(n: nat): (s: string)
    ensures |s| >= 1
    ensures forall i :: 0 <= i < |s| ==> IsDigit(s[i])
    ensures n > 0 ==> s[0] != '0'
    decreases n
  {
    if n < 10 then [DigitChar(n)] else NatDigits(n / 10) + [DigitChar(n % 10)]
  }

  /** `fmt.Sprintf("%d", n)`: a minus sign for negative values, then the digits. */
  function FormatInt(n: int): (s: string)
    ensures |s| >= 1
    ensures n < 0 <==> s[0] == '-'
    ensures forall i :: 0 <= i < |s| ==> IsDigit(s[i]) || s[i] == '-'
  {
    if n < 0 then "-" + NatDigits(-n) else NatDigits(n)
  }

  /** Reads a non-empty run of decimal digits. */
  function ParseNat(s: string): (r: Option<nat>)
    ensures r.Some? ==> |s| >= 1
  {
    if |s| == 0 || !IsDigit(s[|s| - 1]) then None
    else if |s| == 1 then Some(DigitValue(s[0]))
    else match ParseNat(s[..|s| - 1])
      case None => None
      case Some(v) => Some(10 * v + DigitValue(s[|s| - 1]))
  }

  /** Reads an optional minus sign followed by decimal digits. */
  function ParseInt(s: string): Option<int> {
    if |s| > 0 && s[0] == '-' then
      match ParseNat(s[1..])
      case None => None
      case Some(v) => Some(0 - v)
    else
      match ParseNat(s)
      case None => None
      case Some(v) => Some(v as int)
  }

  lemma {:induction false} ParseNatDigits(n: nat)
    ensures ParseNat(NatDigits(n)) == Some(n)
    decreases n
  {
    if n >= 10 {
      var s := NatDigits(n);
      assert s[..|s| - 1] == NatDigits(n / 10);
      ParseNatDigits(n / 10);
    }
  }

  /** Formatting then parsing gives the number back, so `FormatInt` is injective. */
  lemma FormatIntRoundTrip(n: int)
    ensures ParseInt(FormatInt(n)) == Some(n)
  {
    var s := FormatInt(n);
    if n < 0 {
      assert s[0] == '-' && s[1..] == NatDigits(-n);
      ParseNatDigits(-n);
    } else {
      assert s == NatDigits(n) && s[0] != '-';
      ParseNatDigits(n);
    }
  }

  lemma FormatIntInjective(m: int, n: int)
    requires FormatInt(m) == FormatInt(n)
    ensures m == n
  {
    FormatIntRoundTrip(m);
    FormatIntRoundTrip(n);
  }
}

=== FILE: entity.dfy ===
/** The records the order service works on. `Pricing` follows
    internal/entity/pricing.go; `Order`, `OrderRequest` and the two channel
    records are reconstructed from the fields the service reads and writes. */
module Entity {
  import opened Prelude

  /** One line item of an order. Markup, discount and final price are zero
      until pricing is copied in; `orderID` is set when the items are stored. */
  datatype OrderRequest = OrderRequest(
    productID: int64,
    orderID: int64,
    quantity: int64,
    markUp: real,
    discount: real,
    finalPrice: real)

  datatype Order = Order(
    id: int64,
    userID: int64,
    productRequests: seq<OrderRequest>,
    quantity: int64,
    totalPrice: real,
    status: string)

  /** The pricing gateway's answer for one product. */
  datatype Pricing = Pricing(productID: int64, markUp: real, discount: real, finalPrice: real)

  /** What a stock goroutine sends on the availability channel. */
  datatype AvailabilityChannel = AvailabilityChannel(productID: int64, available: bool, error: Option<string>)

  /** What a pricing goroutine sends on the pricing channel. */
  datatype PricingChannel = PricingChannel(
    productID: int64,
    finalPrice: real,
    markUp: real,
    discount: real,
    error: Option<string>)
}

=== FILE: errors.dfy ===
/** The errors the order service returns, with the text Go formats for them. */
module Errors {
  import opened Prelude
  import opened Decimal
  import opened Events

  /** `cause` is the text of the wrapped error (`%w`). */
  datatype Error =
    | StockCheckFailed(productID: int64, cause: string)
    | InsufficientStock(productID: int64)
    | PricingFailed(productID: int64, cause: string)
    | InsertOrderFailed(cause: string)
    | InsertRequestsFailed(cause: string)
    | TransactionFailed(cause: string)
    | UpdateFailed(cause: string)
    | NotFound(orderID: int64)
    | RetrieveFailed(cause: string)
    | CancelFailed(cause: string)
    | PublishFailed(transition: Transition, cause: string)
  {
    /** Rejections raised while validating line items, before anything is stored. */
    predicate IsRejection() {
      StockCheckFailed? || InsufficientStock? || PricingFailed?
    }

    /** The error wraps another one, whose text is `cause`. */
    predicate Wraps() {
      !InsufficientStock? && !NotFound?
    }
  }

  /** The text `Error()` returns. A wrapped error's text ends the message
      unchanged, and a failed commit is returned without any wrapping. */
  function Message(e: Error): (m: string)
    ensures e.Wraps() ==> |e.cause| <= |m| && m[|m| - |e.cause|..] == e.cause
    ensures e.TransactionFailed? ==> m == e.cause
  {
    match e
    case StockCheckFailed(id, c) => RejectionLead(e) + FormatInt(id) + ": " + c
    case InsufficientStock(id) => RejectionLead(e) + FormatInt(id)
    case PricingFailed(id, c) => RejectionLead(e) + FormatInt(id) + ": " + c
    case InsertOrderFailed(c) => "failed to create order in transaction: " + c
    case InsertRequestsFailed(c) => "failed to create order requests in transaction: " + c
    case TransactionFailed(c) => c
    case UpdateFailed(c) => "failed to update order: " + c
    case NotFound(id) => "order with ID " + FormatInt(id) + " not found"
    case RetrieveFailed(c) => "failed to retrieve order: " + c
    case CancelFailed(c) => "failed to cancel order: " + c
    case PublishFailed(t, c) => "failed to publish order " + Keyword(t) + " event: " + c
  }

  /** The text after a product ID in a rejection's message: empty, or `": "`
      and the cause. The ID's digits cannot run on into it. */
  lemma {:induction false} IdThenCause(f1: string, r1: string, f2: string, r2: string)
    requires forall i :: 0 <= i < |f1| ==> IsDigit(f1[i]) || f1[i] == '-'
    requires forall i :: 0 <= i < |f2| ==> IsDigit(f2[i]) || f2[i] == '-'
    requires r1 == [] || r1[0] == ':'
    requires r2 == [] || r2[0] == ':'
    requires f1 + r1 == f2 + r2
    ensures f1 == f2 && r1 == r2
  {
    if |f1| < |f2| {
      FirstDifference(f1, r1, f2, r2);
      assert false;
    } else if |f2| < |f1| {
      FirstDifference(f2, r2, f1, r1);
      assert false;
    } else {
      assert f1 == (f1 + r1)[..|f1|];
      assert f2 == (f2 + r2)[..|f2|];
      assert r1 == (f1 + r1)[|f1|..];
      assert r2 == (f2 + r2)[|f2|..];
    }
  }

  /** Where a shorter prefix ends, the longer one's next character is the
      first character of what follows the shorter one. */
  lemma FirstDifference(a: string, x: string, b: string, y: string)
    requires a + x == b + y && |a| < |b|
    ensures |x| > 0 && b[|a|] == x[0]
  {
    assert (a + x)[|a|] == x[0];
    assert (b + y)[|a|] == b[|a|];
  }

  /** The fixed text in front of the product ID in a rejection's message. */
  function RejectionLead(e: Error): string
    requires e.IsRejection()
  {
    match e
    case StockCheckFailed(_, _) => StockLead()
    case InsufficientStock(_) => ShortageLead()
    case PricingFailed(_, _) => PricingLead()
  }

  function StockLead(): string { "failed to check product stock" + ForProductID() }
  function ShortageLead(): string { "insufficient stock" + ForProductID() }
  function PricingLead(): string { "failed to get pricing" + ForProductID() }
  function ForProductID(): string { " for product ID " }

  /** What follows the product ID: nothing, or `": "` and the cause. */
  function RejectionTail(e: Error): string
    requires e.IsRejection()
  {
    if e.InsufficientStock? then "" else ": " + e.cause
  }

  lemma RejectionParts(e: Error)
    requires e.IsRejection()
    ensures Message(e) == RejectionLead(e) + (FormatInt(e.productID) + RejectionTail(e))
  {
  }

  /** Characters 0 and 10 of the lead tell the three kinds apart. */
  lemma LeadHeads(e: Error)
    requires e.IsRejection()
    ensures |RejectionLead(e)| > 10
    ensures RejectionLead(e)[0] == (if e.InsufficientStock? then 'i' else 'f')
    ensures e.StockCheckFailed? ==> RejectionLead(e)[10] == 'c'
    ensures e.PricingFailed? ==> RejectionLead(e)[10] == 'g'
  {
  }

  /** The message of a line-item rejection identifies it: the kind, the
      product ID and the cause can all be read back from the text. */
  lemma RejectionMessageInjective(e1: Error, e2: Error)
    requires e1.IsRejection() && e2.IsRejection()
    requires Message(e1) == Message(e2)
    ensures e1 == e2
  {
    var m := Message(e1);
    var l1, l2 := RejectionLead(e1), RejectionLead(e2);
    RejectionParts(e1);
    RejectionParts(e2);
    LeadHeads(e1);
    LeadHeads(e2);
    assert m[0] == l1[0] && m[10] == l1[10];
    assert m[0] == l2[0] && m[10] == l2[10];
    assert l1 == l2;
    assert m[|l1|..] == FormatInt(e1.productID) + RejectionTail(e1);
    assert m[|l2|..] == FormatInt(e2.productID) + RejectionTail(e2);
    IdThenCause(FormatInt(e1.productID), RejectionTail(e1), FormatInt(e2.productID), RejectionTail(e2));
    FormatIntInjective(e1.productID, e2.productID);
    if !e1.InsufficientStock? {
      assert e1.cause == RejectionTail(e1)[2..];
      assert e2.cause == RejectionTail(e2)[2..];
    }
  }
}

=== FILE: events.dfy ===
/** Event keys of the form `order.<transition>.<id>` published after each
    lifecycle operation. */
module Events {
  import opened Prelude
  import opened Decimal

  datatype Transition = Created | Updated | Cancelled

  function Keyword(t: Transition): string {
    match t
    case Created => "created"
    case Updated => "updated"
    case Cancelled => "cancelled"
  }

  function KeyPrefix(t: Transition): string {
    "order." + Keyword(t) + "."
  }

  /** `fmt.Sprintf("order.%s.%d", key, order.ID)`: the key starts with its
      own transition's prefix and with no other, and what follows the prefix
      reads back as the order ID. */
  function EventKey(t: Transition, id: int64): (k: string)
    ensures KeyPrefix(t) <= k
    ensures forall u :: u != t ==> !(KeyPrefix(u) <= k)
    ensures ParseInt(k[|KeyPrefix(t)|..]) == Some(id as int)
  {
    var k := KeyPrefix(t) + FormatInt(id);
    assert k[|KeyPrefix(t)|..] == FormatInt(id);
    FormatIntRoundTrip(id);
    PrefixExcludes(t, k);
    k
  }

  /** The prefixes of two different transitions part at index 6 or 7, so a
      string starts with at most one of them. */
  lemma PrefixExcludes(t: Transition, k: string)
    requires KeyPrefix(t) <= k
    ensures forall u :: u != t ==> !(KeyPrefix(u) <= k)
  {
    assert KeyPrefix(Created)[6] == 'c' && KeyPrefix(Created)[7] == 'r';
    assert KeyPrefix(Updated)[6] == 'u';
    assert KeyPrefix(Cancelled)[6] == 'c' && KeyPrefix(Cancelled)[7] == 'a';
    assert k[6] == KeyPrefix(t)[6] && k[7] == KeyPrefix(t)[7];
  }

  /** Recovers the transition and the order ID from a key. */
  function ParseEventKey(k: string): Option<(Transition, int)> {
    if KeyPrefix(Created) <= k then ParseTail(Created, k[|KeyPrefix(Created)|..])
    else if KeyPrefix(Updated) <= k then ParseTail(Updated, k[|KeyPrefix(Updated)|..])
    else if KeyPrefix(Cancelled) <= k then ParseTail(Cancelled, k[|KeyPrefix(Cancelled)|..])
    else None
  }

  function ParseTail(t: Transition, tail: string): Option<(Transition, int)> {
    match ParseInt(tail)
    case None => None
    case Some(id) => Some((t, id))
  }

  /** The key names its transition and its order unambiguously. */
  lemma EventKeyRoundTrip(t: Transition, id: int64)
    ensures ParseEventKey(EventKey(t, id)) == Some((t, id as int))
  {
  }

  lemma EventKeyInjective(t1: Transition, id1: int64, t2: Transition, id2: int64)
    requires EventKey(t1, id1) == EventKey(t2, id2)
    ensures t1 == t2 && id1 == id2
  {
    EventKeyRoundTrip(t1, id1);
    EventKeyRoundTrip(t2, id2);
  }
}

=== FILE: fanout.dfy ===
/** The fan-out half of `CreateOrder`: one stock goroutine and one pricing
    goroutine per line item, whose messages reach the two channels in some
    arrival order. Scheduling is not modelled; an arrival order is a
    parameter. */
module Fanout {
  import opened Prelude
  import opened Entity
  import opened Gateways
  import opened Errors
  import opened Validation

  /** The message a stock goroutine sends for `item`. */
  function AvailabilityMessage(item: OrderRequest, reply: StockReply): (m: AvailabilityChannel)
    ensures m.productID == item.productID
    ensures m.available <==> reply.Success? && IsInStock(reply.value, item.quantity)
    ensures m.error.Some? <==> reply.Failure?
    ensures reply.Failure? ==> m.error == Some(reply.error)
  {
    var (available, err) := CheckProductStock(reply, item.quantity);
    AvailabilityChannel(item.productID, available, err)
  }

  /** The pricing goroutine as written. When the gateway fails, `getPricing`
      returns a nil record together with the error, and building the message
      reads `pricing.FinalPrice` through that nil pointer: `None` stands for
      the resulting run-time panic, which takes the whole process down. */
  function PricingMessageAsWritten(item: OrderRequest, reply: PriceReply): Option<PricingChannel> {
    match reply
    case Failure(_) => None
    case Success(pr) => Some(PricingChannel(item.productID, pr.finalPrice, pr.markUp, pr.discount, None))
  }

  /** The pricing goroutine as evidently intended: on a gateway failure it
      sends the error with zeroed price fields instead of dereferencing nil. */
  function PricingMessage(item: OrderRequest, reply: PriceReply): (m: PricingChannel)
    ensures m.productID == item.productID
    ensures m.error.Some? <==> reply.Failure?
    ensures reply.Failure? ==> m.error == Some(reply.error)
    ensures reply.Success? ==> m.finalPrice == reply.value.finalPrice
  {
    match reply
    case Failure(c) => PricingChannel(item.productID, 0.0, 0.0, 0.0, Some(c))
    case Success(pr) => PricingChannel(item.productID, pr.finalPrice, pr.markUp, pr.discount, None)
  }

  /** Every pricing-gateway failure panics in the code as written, and on a
      successful reply the two goroutines send the same message. */
  lemma PricingFailurePanics(item: OrderRequest, reply: PriceReply)
    ensures PricingMessageAsWritten(item, reply).None? <==> reply.Failure?
    ensures reply.Success? ==> PricingMessageAsWritten(item, reply) == Some(PricingMessage(item, reply))
  {
  }

  /** With the corrected goroutine a pricing failure reaches the drain loop
      and is reported for the line item's product, provided its pair's
      availability result passed. */
  lemma PricingFailureReported(a: AvailabilityChannel, item: OrderRequest, c: string)
    requires a.error.None? && a.available
    ensures PairError(a, PricingMessage(item, Failure(c))) == Some(PricingFailed(item.productID, c))
  {
  }

  /** `arrival[k]` is the index of the line item whose message is the k-th to
      be received; every line item's message arrives exactly once. */
  predicate IsArrivalOrder(arrival: seq<nat>, n: nat) {
    && |arrival| == n
    && (forall k :: 0 <= k < n ==> arrival[k] < n)
    && (forall i :: 0 <= i < n ==> i in arrival)
  }

  /** The availability channel's contents in arrival order. */
  function AvailabilityStream(items: seq<OrderRequest>, stock: seq<StockReply>, arrival: seq<nat>)
    : (s: seq<AvailabilityChannel>)
    requires |stock| == |items|
    requires forall k :: 0 <= k < |arrival| ==> arrival[k] < |items|
    ensures |s| == |arrival|
    ensures forall k :: 0 <= k < |s| ==> s[k] == AvailabilityMessage(items[arrival[k]], stock[arrival[k]])
  {
    if |arrival| == 0 then []
    else [AvailabilityMessage(items[arrival[0]], stock[arrival[0]])] + AvailabilityStream(items, stock, arrival[1..])
  }

  /** The pricing channel's contents in arrival order. */
  function PricingStream(items: seq<OrderRequest>, prices: seq<PriceReply>, arrival: seq<nat>)
    : (s: seq<PricingChannel>)
    requires |prices| == |items|
    requires forall k :: 0 <= k < |arrival| ==> arrival[k] < |items|
    ensures |s| == |arrival|
    ensures forall k :: 0 <= k < |s| ==> s[k] == PricingMessage(items[arrival[k]], prices[arrival[k]])
  {
    if |arrival| == 0 then []
    else [PricingMessage(items[arrival[0]], prices[arrival[0]])] + PricingStream(items, prices, arrival[1..])
  }

  /** Every gateway reply for the order is usable: stock suffices and a
      price came back for each line item. */
  predicate AllRepliesGood(items: seq<OrderRequest>, stock: seq<StockReply>, prices: seq<PriceReply>)
    requires |stock| == |items| && |prices| == |items|
  {
    forall i :: 0 <= i < |items| ==>
      stock[i].Success? && IsInStock(stock[i].value, items[i].quantity) && prices[i].Success?
  }

  /** Good replies for every line item make every pair pass. */
  lemma AllGoodPairsPass(
    items: seq<OrderRequest>, stock: seq<StockReply>, prices: seq<PriceReply>, arrA: seq<nat>, arrP: seq<nat>)
    requires |stock| == |items| && |prices| == |items|
    requires IsArrivalOrder(arrA, |items|) && IsArrivalOrder(arrP, |items|)
    requires AllRepliesGood(items, stock, prices)
    ensures PairsPass(AvailabilityStream(items, stock, arrA), PricingStream(items, prices, arrP), 0, |items|)
  {
    var avail := AvailabilityStream(items, stock, arrA);
    var pricing := PricingStream(items, prices, arrP);
    forall k | 0 <= k < |items|
      ensures PairError(avail[k], pricing[k]).None?
    {
      var i, j := arrA[k], arrP[k];
      assert avail[k] == AvailabilityMessage(items[i], stock[i]);
      assert pricing[k] == PricingMessage(items[j], prices[j]);
    }
  }

  /** If every pair passes, every line item's replies were good: each item's
      availability and pricing messages arrived at some position. */
  lemma PassingPairsAllGood(
    items: seq<OrderRequest>, stock: seq<StockReply>, prices: seq<PriceReply>, arrA: seq<nat>, arrP: seq<nat>)
    requires |stock| == |items| && |prices| == |items|
    requires IsArrivalOrder(arrA, |items|) && IsArrivalOrder(arrP, |items|)
    requires PairsPass(AvailabilityStream(items, stock, arrA), PricingStream(items, prices, arrP), 0, |items|)
    ensures AllRepliesGood(items, stock, prices)
  {
    var avail := AvailabilityStream(items, stock, arrA);
    var pricing := PricingStream(items, prices, arrP);
    forall i | 0 <= i < |items|
      ensures stock[i].Success? && IsInStock(stock[i].value, items[i].quantity) && prices[i].Success?
    {
      assert i in arrA && i in arrP;
      var ka :| 0 <= ka < |arrA| && arrA[ka] == i;
      var kp :| 0 <= kp < |arrP| && arrP[kp] == i;
      assert avail[ka] == AvailabilityMessage(items[i], stock[i]);
      assert PairError(avail[ka], pricing[ka]).None?;
      assert pricing[kp] == PricingMessage(items[i], prices[i]);
      assert PairError(avail[kp], pricing[kp]).None?;
    }
  }

  /** Whatever the two arrival orders, validation passes exactly when every
      stock and pricing reply for every line item is good. */
  lemma PassesIffAllRepliesGood(
    items: seq<OrderRequest>, stock: seq<StockReply>, prices: seq<PriceReply>, arrA: seq<nat>, arrP: seq<nat>)
    requires |stock| == |items| && |prices| == |items|
    requires IsArrivalOrder(arrA, |items|) && IsArrivalOrder(arrP, |items|)
    ensures Validate(items, AvailabilityStream(items, stock, arrA), PricingStream(items, prices, arrP)).Passed?
      <==> AllRepliesGood(items, stock, prices)
  {
    if AllRepliesGood(items, stock, prices) {
      AllGoodPairsPass(items, stock, prices, arrA, arrP);
    }
    if Validate(items, AvailabilityStream(items, stock, arrA), PricingStream(items, prices, arrP)).Passed? {
      PassingPairsAllGood(items, stock, prices, arrA, arrP);
    }
  }

  /** `e` is the error the source reports when `item`'s own replies failed
      in the way `e` describes. */
  predicate Explains(e: Error, item: OrderRequest, stock: StockReply, price: PriceReply) {
    match e
    case StockCheckFailed(pid, c) => item.productID == pid && stock == Failure(c)
    case InsufficientStock(pid) => item.productID == pid && stock.Success? && !IsInStock(stock.value, item.quantity)
    case PricingFailed(pid, c) => item.productID == pid && price == Failure(c)
    case _ => false
  }

  /** A rejection always names a line item's product whose own reply failed
      in the way the error says, whatever the arrival orders. */
  lemma RejectionNamesFailingItem(
    items: seq<OrderRequest>, stock: seq<StockReply>, prices: seq<PriceReply>, arrA: seq<nat>, arrP: seq<nat>)
    requires |stock| == |items| && |prices| == |items|
    requires IsArrivalOrder(arrA, |items|) && IsArrivalOrder(arrP, |items|)
    ensures
      var v := Validate(items, AvailabilityStream(items, stock, arrA), PricingStream(items, prices, arrP));
      v.Rejected? ==> exists i :: 0 <= i < |items| && Explains(v.error, items[i], stock[i], prices[i])
  {
    var avail := AvailabilityStream(items, stock, arrA);
    var pricing := PricingStream(items, prices, arrP);
    var v := Validate(items, avail, pricing);
    if v.Rejected? {
      var a := avail[v.at];
      if a.error.Some? || !a.available {
        var i := arrA[v.at];
        assert a == AvailabilityMessage(items[i], stock[i]);
        assert Explains(v.error, items[i], stock[i], prices[i]);
      } else {
        var i := arrP[v.at];
        assert pricing[v.at] == PricingMessage(items[i], prices[i]);
        assert Explains(v.error, items[i], stock[i], prices[i]);
      }
    }
  }
}

=== FILE: gateways.dfy ===
/** The stock and pricing gateways, reduced to the replies they give. The HTTP
    request, status-code check and JSON decoding all collapse into `Failure`. */
module Gateways {
  import opened Prelude
  import opened Entity

  /** The `stock` value the stock service reported, or why it could not be read. */
  type StockReply = Result<int, string>

  /** The decoded pricing record, or why it could not be fetched. */
  type PriceReply = Result<Pricing, string>

  /** The decision `checkProductStock` makes once the stock is known. */
  predicate IsInStock(stock: int, quantity: int64) {
    stock >= quantity
  }

  /** `checkProductStock`'s `(bool, error)`: false together with any error. */
  function CheckProductStock(reply: StockReply, quantity: int64): (r: (bool, Option<string>))
    ensures r.0 <==> reply.Success? && IsInStock(reply.value, quantity)
    ensures r.1.Some? <==> reply.Failure?
  {
    match reply
    case Failure(c) => (false, Some(c))
    case Success(stock) => (IsInStock(stock, quantity), None)
  }
}

=== FILE: order_service.dfy ===
/** The three operations of the order service, with every collaborator
    replaced by the reply it gives: channel contents for the gateways in
    `CreateOrder`, scripted replies for the transaction, the repository and
    the event writer. Each operation returns what Go returns together with
    the trace of calls it made, so "nothing was written" and "nothing was
    published" can be stated. */
module OrderService {
  import opened Prelude
  import opened Entity
  import opened Errors
  import opened Events
  import opened Gateways
  import opened Validation

  /** A call the service makes on a collaborator. */
  datatype Effect =
    | CheckStock(productID: int64, quantity: int64)
    | LookupPrice(productID: int64)
    | InsertOrder(order: Order)
    | InsertRequests(requests: seq<OrderRequest>)
    | Commit
    | Rollback
    | ReadOrder(id: int64)
    | WriteOrder(order: Order)
    | Publish(key: string, order: Order)

  /** The trace commits a transaction or calls the repository update. The
      update call counts whatever it then returns, so a failed or nil update
      is still an attempted write; a rolled-back transaction is not. */
  predicate AttemptsWrite(trace: seq<Effect>) {
    exists e :: e in trace && (e.Commit? || e.WriteOrder?)
  }

  predicate Publishes(trace: seq<Effect>) {
    exists e :: e in trace && e.Publish?
  }

  /** No step before the last one publishes, so a trace publishes at most
      once, and only as its final step. */
  predicate PublishesOnlyLast(trace: seq<Effect>) {
    forall k :: 0 <= k < |trace| - 1 ==> !trace[k].Publish?
  }

  function WriteCount(trace: seq<Effect>): nat {
    if |trace| == 0 then 0 else (if trace[0].WriteOrder? then 1 else 0) + WriteCount(trace[1..])
  }

  /** What Go returns, `(order, nil)` or `(nil, err)`, and the calls made. */
  datatype Outcome = Outcome(reply: Result<Order, Error>, trace: seq<Effect>)

  // ---------------------------------------------------------------- create

  /** The 2N gateway calls launched before any result is read: a stock check
      and a price lookup for every line item, in slice order. */
  function Dispatch(items: seq<OrderRequest>): (t: seq<Effect>)
    ensures |t| == 2 * |items|
    ensures forall i :: 0 <= i < |items| ==> t[2 * i] == CheckStock(items[i].productID, items[i].quantity)
    ensures forall i :: 0 <= i < |items| ==> t[2 * i + 1] == LookupPrice(items[i].productID)
    ensures forall e :: e in t ==> e.CheckStock? || e.LookupPrice?
  {
    if |items| == 0 then []
    else
      var n := |items| - 1;
      Dispatch(items[..n]) + [CheckStock(items[n].productID, items[n].quantity), LookupPrice(items[n].productID)]
  }

  /** `mapOrderRequestWithOrderID`: the line items in the same order with
      `OrderID` set to `orderID` and nothing else changed. The result is a
      new slice; the order's own items are untouched. */
  function MapOrderRequestWithOrderID(items: seq<OrderRequest>, orderID: int64): (r: seq<OrderRequest>)
    ensures |r| == |items|
    ensures forall i :: 0 <= i < |r| ==> r[i].orderID == orderID
    ensures forall i :: 0 <= i < |r| ==> r[i].(orderID := items[i].orderID) == items[i]
  {
    if |items| == 0 then []
    else MapOrderRequestWithOrderID(items[..|items| - 1], orderID) + [items[|items| - 1].(orderID := orderID)]
  }

  /** How each step of the (opaque) transaction turns out: the ID the header
      insert assigns, then whether the line-item insert and the commit fail. */
  datatype TxReplies = TxReplies(insertOrder: Result<int64, string>, insertRequests: Option<string>, commit: Option<string>) {
    predicate Succeeds() {
      insertOrder.Success? && insertRequests.None? && commit.None?
    }
  }

  /** The `WithTransaction` block: insert the header, stamp the line items
      with the assigned ID and insert them; all or nothing. */
  function Transaction(order: Order, tx: TxReplies): (out: (Result<Order, Error>, seq<Effect>))
    ensures out.0.Success? <==> tx.Succeeds()
    ensures |out.1| >= 2 && out.1[0] == InsertOrder(order)
    ensures out.1[|out.1| - 1] == if tx.Succeeds() then Commit else Rollback
    ensures forall e :: e in out.1[..|out.1| - 1] ==> e.InsertOrder? || e.InsertRequests?
    ensures tx.insertOrder.Failure? ==> forall e :: e in out.1 ==> !e.InsertRequests?
    ensures tx.Succeeds() ==>
      && out.0.value == order.(id := tx.insertOrder.value)
      && InsertRequests(MapOrderRequestWithOrderID(order.productRequests, tx.insertOrder.value)) in out.1
    ensures out.0.Failure? ==> match tx.insertOrder
      case Failure(c) => out.0.error == InsertOrderFailed(c)
      case Success(_) =>
        if tx.insertRequests.Some? then out.0.error == InsertRequestsFailed(tx.insertRequests.value)
        else out.0.error == TransactionFailed(tx.commit.value)
  {
    match tx.insertOrder
    case Failure(c) => (Failure(InsertOrderFailed(c)), [InsertOrder(order), Rollback])
    case Success(id) =>
      var stored := order.(id := id);
      var body := [InsertOrder(order), InsertRequests(MapOrderRequestWithOrderID(stored.productRequests, id))];
      if tx.insertRequests.Some? then (Failure(InsertRequestsFailed(tx.insertRequests.value)), body + [Rollback])
      else if tx.commit.Some? then (Failure(TransactionFailed(tx.commit.value)), body + [Rollback])
      else (Success(stored), body + [Commit])
  }

  /** `CreateOrder`: validation of the channel contents, then the
      transaction, then the `created` event, each step only if the previous
      one succeeded. The accumulated total is computed and dropped. */
  function CreateOrder(
    order: Order, avail: seq<AvailabilityChannel>, pricing: seq<PricingChannel>, tx: TxReplies, publish: Option<string>)
    : (out: Outcome)
    requires |avail| == |order.productRequests| && |pricing| == |order.productRequests|
    ensures Dispatch(order.productRequests) <= out.trace
    ensures
      var v := Validate(order.productRequests, avail, pricing);
      v.Rejected? ==> out == Outcome(Failure(v.error), Dispatch(order.productRequests))
    ensures out.reply.Success? ==>
      tx.insertOrder.Success? && out.reply.value == order.(id := tx.insertOrder.value)
    ensures
      var v := Validate(order.productRequests, avail, pricing);
      v.Passed? && !tx.Succeeds() ==>
        out == Outcome(Transaction(order, tx).0, Dispatch(order.productRequests) + Transaction(order, tx).1)
    ensures
      var v := Validate(order.productRequests, avail, pricing);
      v.Passed? && tx.Succeeds() ==>
        && InsertOrder(order) in out.trace
        && InsertRequests(MapOrderRequestWithOrderID(order.productRequests, tx.insertOrder.value)) in out.trace
        && out.reply == match publish
          case Some(c) => Failure(PublishFailed(Created, c))
          case None => Success(order.(id := tx.insertOrder.value))
  {
    var dispatch := Dispatch(order.productRequests);
    match Validate(order.productRequests, avail, pricing)
    case Rejected(_, e) => Outcome(Failure(e), dispatch)
    case Passed(_) =>
      var (r, txTrace) := Transaction(order, tx);
      match r
      case Failure(e) =>
        assert dispatch <= dispatch + txTrace;
        Outcome(Failure(e), dispatch + txTrace)
      case Success(stored) =>
        var t := dispatch + txTrace + [Publish(EventKey(Created, stored.id), stored)];
        assert dispatch <= t by { assert t == dispatch + (txTrace + [Publish(EventKey(Created, stored.id), stored)]); }
        match publish
        case Some(c) => Outcome(Failure(PublishFailed(Created, c)), t)
        case None => Outcome(Success(stored), t)
  }

  /** A trace of reads, checks and rolled-back inserts changes nothing and
      publishes nothing. */
  lemma Inert(t: seq<Effect>)
    requires forall e :: e in t ==> !e.Commit? && !e.WriteOrder? && !e.Publish?
    ensures !AttemptsWrite(t) && !Publishes(t)
  {
  }

  /** A trace none of whose steps publishes, with or without one more step
      at the end, publishes only as its last step. */
  lemma QuietPrefix(t: seq<Effect>)
    requires forall e :: e in t ==> !e.Publish?
    ensures PublishesOnlyLast(t)
    ensures forall p :: PublishesOnlyLast(t + [p])
  {
    forall p, k | 0 <= k < |t + [p]| - 1
      ensures !(t + [p])[k].Publish?
    {
      assert (t + [p])[k] == t[k];
    }
  }

  /** The gateway calls and the transaction neither publish nor call the
      repository update, and they commit only when the transaction succeeds. */
  lemma BeforePublish(order: Order, tx: TxReplies)
    ensures forall e :: e in Dispatch(order.productRequests) + Transaction(order, tx).1 ==>
      !e.WriteOrder? && !e.Publish? && (e.Commit? ==> tx.Succeeds())
  {
    var dispatch := Dispatch(order.productRequests);
    var txTrace := Transaction(order, tx).1;
    forall e: Effect | e in dispatch + txTrace
      ensures !e.WriteOrder? && !e.Publish? && (e.Commit? ==> tx.Succeeds())
    {
      if e !in dispatch {
        assert e in txTrace[..|txTrace| - 1] || e == txTrace[|txTrace| - 1] by {
          assert txTrace == txTrace[..|txTrace| - 1] + [txTrace[|txTrace| - 1]];
        }
      }
    }
  }

  /** Create commits exactly when validation passes and every step of the
      transaction succeeds; it publishes exactly when it committed, and the
      `created` event, keyed by the assigned ID, comes right after the
      commit. It succeeds exactly when that publish succeeds. */
  lemma CreateSequencing(
    order: Order, avail: seq<AvailabilityChannel>, pricing: seq<PricingChannel>, tx: TxReplies, publish: Option<string>)
    requires |avail| == |order.productRequests| && |pricing| == |order.productRequests|
    ensures
      var out := CreateOrder(order, avail, pricing, tx, publish);
      && (AttemptsWrite(out.trace) <==> Validate(order.productRequests, avail, pricing).Passed? && tx.Succeeds())
      && (Publishes(out.trace) <==> AttemptsWrite(out.trace))
      && (Publishes(out.trace) ==>
        && out.trace[|out.trace| - 2] == Commit
        && out.trace[|out.trace| - 1] == Publish(EventKey(Created, tx.insertOrder.value), order.(id := tx.insertOrder.value)))
      && (out.reply.Success? <==> Publishes(out.trace) && publish.None?)
  {
    var items := order.productRequests;
    var out := CreateOrder(order, avail, pricing, tx, publish);
    var dispatch := Dispatch(items);
    if Validate(items, avail, pricing).Rejected? {
      Inert(out.trace);
    } else {
      var (r, txTrace) := Transaction(order, tx);
      var t := dispatch + txTrace;
      BeforePublish(order, tx);
      if tx.Succeeds() {
        var p := Publish(EventKey(Created, r.value.id), r.value);
        assert out.trace == t + [p];
        assert out.trace[|out.trace| - 2] == Commit;
        assert Commit in out.trace && p in out.trace;
      } else {
        assert out.trace == t;
        Inert(t);
      }
    }
  }

  /** Create publishes at most once, as its last step: nothing publishes
      before the gateway calls, the inserts and the commit are done. */
  lemma CreatePublishesOnce(
    order: Order, avail: seq<AvailabilityChannel>, pricing: seq<PricingChannel>, tx: TxReplies, publish: Option<string>)
    requires |avail| == |order.productRequests| && |pricing| == |order.productRequests|
    ensures PublishesOnlyLast(CreateOrder(order, avail, pricing, tx, publish).trace)
  {
    var out := CreateOrder(order, avail, pricing, tx, publish);
    var t := Dispatch(order.productRequests) + Transaction(order, tx).1;
    BeforePublish(order, tx);
    QuietPrefix(t);
    if Validate(order.productRequests, avail, pricing).Rejected? {
      QuietPrefix(Dispatch(order.productRequests));
    } else if tx.Succeeds() {
      assert out.trace == t + [out.trace[|out.trace| - 1]];
    } else {
      assert out.trace == t;
    }
  }

  // ---------------------------------------------------------------- update

  /** One step of the stock re-check: the gateway error, or insufficient
      stock, for `item`. */
  function StockError(item: OrderRequest, reply: StockReply): (r: Option<Error>)
    ensures r.None? <==> reply.Success? && IsInStock(reply.value, item.quantity)
  {
    match reply
    case Failure(c) => Some(StockCheckFailed(item.productID, c))
    case Success(stock) => if IsInStock(stock, item.quantity) then None else Some(InsufficientStock(item.productID))
  }

  /** The first line item at or after `i` that fails the re-check, with its error. */
  function FirstStockFailure(items: seq<OrderRequest>, stock: seq<StockReply>, i: nat): (r: Option<(nat, Error)>)
    requires |stock| == |items| && i <= |items|
    ensures r.None? <==> forall j :: i <= j < |items| ==> StockError(items[j], stock[j]).None?
    ensures r.Some? ==>
      && i <= r.value.0 < |items|
      && StockError(items[r.value.0], stock[r.value.0]) == Some(r.value.1)
      && forall j :: i <= j < r.value.0 ==> StockError(items[j], stock[j]).None?
    decreases |items| - i
  {
    if i == |items| then None
    else match StockError(items[i], stock[i])
      case Some(e) => Some((i, e))
      case None => FirstStockFailure(items, stock, i + 1)
  }

  /** The stock checks made for a prefix of the line items, in order. */
  function StockChecks(items: seq<OrderRequest>): (t: seq<Effect>)
    ensures |t| == |items|
    ensures forall i :: 0 <= i < |t| ==> t[i] == CheckStock(items[i].productID, items[i].quantity)
  {
    if |items| == 0 then [] else StockChecks(items[..|items| - 1]) + [CheckStock(items[|items| - 1].productID, items[|items| - 1].quantity)]
  }

  /** The stock checks `UpdateOrder` makes and the error that stops it, if any. */
  function Recheck(order: Order, stock: seq<StockReply>): (r: (seq<Effect>, Option<Error>))
    requires |stock| == |order.productRequests|
    ensures forall e :: e in r.0 ==> e.CheckStock?
    ensures order.status != "Paid" ==> r == ([], None)
    ensures order.status == "Paid" ==>
      (r.1.None? <==> forall j :: 0 <= j < |order.productRequests| ==> StockError(order.productRequests[j], stock[j]).None?)
    ensures order.status == "Paid" && r.1.None? ==> r.0 == StockChecks(order.productRequests)
    ensures r.1.Some? ==>
      var k := |r.0| - 1;
      && order.status == "Paid"
      && 0 <= k < |order.productRequests|
      && r.0 == StockChecks(order.productRequests[..k + 1])
      && StockError(order.productRequests[k], stock[k]) == r.1
      && forall j :: 0 <= j < k ==> StockError(order.productRequests[j], stock[j]).None?
  {
    var items := order.productRequests;
    if order.status != "Paid" then ([], None)
    else match FirstStockFailure(items, stock, 0)
      case Some((k, e)) => (StockChecks(items[..k + 1]), Some(e))
      case None => (StockChecks(items), None)
  }

  /** `UpdateOrder`: for status exactly "Paid", a stock re-check of every line
      item in slice order stopping at the first failure; then the repository
      update; then the `updated` event keyed by the ID the repository returned. */
  function UpdateOrder(
    order: Order, stock: seq<StockReply>, write: Result<Option<Order>, string>, publish: Option<string>)
    : (out: Outcome)
    requires |stock| == |order.productRequests|
    ensures order.status != "Paid" ==> |out.trace| >= 1 && out.trace[0] == WriteOrder(order)
    ensures order.status == "Paid" && FirstStockFailure(order.productRequests, stock, 0).Some? ==>
      var (k, e) := FirstStockFailure(order.productRequests, stock, 0).value;
      out == Outcome(Failure(e), StockChecks(order.productRequests[..k + 1]))
    ensures write == Success(None) && WriteOrder(order) in out.trace ==>
      out.reply == Failure(NotFound(order.id))
    ensures order.status == "Paid" && FirstStockFailure(order.productRequests, stock, 0).None? ==>
      |out.trace| > |order.productRequests|
      && out.trace[..|order.productRequests| + 1] == StockChecks(order.productRequests) + [WriteOrder(order)]
    ensures write.Failure? && WriteOrder(order) in out.trace ==> out.reply == Failure(UpdateFailed(write.error))
    ensures write.Success? && write.value.Some? && WriteOrder(order) in out.trace && publish.Some? ==>
      out.reply == Failure(PublishFailed(Updated, publish.value))
    ensures out.reply.Success? ==> write.Success? && write.value.Some? && out.reply.value == write.value.value
  {
    var (checks, failure) := Recheck(order, stock);
    if failure.Some? then Outcome(Failure(failure.value), checks)
    else
      var t := checks + [WriteOrder(order)];
      match write
      case Failure(c) => Outcome(Failure(UpdateFailed(c)), t)
      case Success(None) => Outcome(Failure(NotFound(order.id)), t)
      case Success(Some(u)) =>
        var t' := t + [Publish(EventKey(Updated, u.id), u)];
        match publish
        case Some(c) => Outcome(Failure(PublishFailed(Updated, c)), t')
        case None => Outcome(Success(u), t')
  }

  /** Update writes (once) exactly when the re-check is skipped or every line
      item passes it; a failed re-check leaves no write and no publish. It
      publishes exactly when the repository returned an order, as the last
      step, and a nil order is reported as not found without publishing. */
  lemma UpdateSequencing(
    order: Order, stock: seq<StockReply>, write: Result<Option<Order>, string>, publish: Option<string>)
    requires |stock| == |order.productRequests|
    ensures
      var out := UpdateOrder(order, stock, write, publish);
      && (AttemptsWrite(out.trace) <==> order.status != "Paid" || FirstStockFailure(order.productRequests, stock, 0).None?)
      && (AttemptsWrite(out.trace) ==> WriteCount(out.trace) == 1 && WriteOrder(order) in out.trace)
      && (Publishes(out.trace) <==> AttemptsWrite(out.trace) && write.Success? && write.value.Some?)
      && (Publishes(out.trace) ==>
        out.trace[|out.trace| - 1] == Publish(EventKey(Updated, write.value.value.id), write.value.value))
      && (Publishes(out.trace) ==> |out.trace| == |Recheck(order, stock).0| + 2)
      && PublishesOnlyLast(out.trace)
      && (AttemptsWrite(out.trace) && write == Success(None) ==> out.reply == Failure(NotFound(order.id)))
      && (out.reply.Success? <==> Publishes(out.trace) && publish.None?)
  {
    var out := UpdateOrder(order, stock, write, publish);
    var (checks, failure) := Recheck(order, stock);
    WriteCountChecks(checks);
    if failure.Some? {
      Inert(checks);
      QuietPrefix(checks);
    } else {
      var w := WriteOrder(order);
      var t := checks + [w];
      WriteCountSnoc(checks, w);
      assert w in t;
      forall e | e in t
        ensures !e.Publish?
      {
        if e !in checks {
          assert e == w;
        }
      }
      QuietPrefix(t);
      if write.Success? && write.value.Some? {
        var p := Publish(EventKey(Updated, write.value.value.id), write.value.value);
        WriteCountSnoc(t, p);
        assert out.trace == t + [p];
        assert p in out.trace && w in out.trace;
      } else {
        assert out.trace == t;
      }
    }
  }

  lemma {:induction false} WriteCountSnoc(t: seq<Effect>, e: Effect)
    ensures WriteCount(t + [e]) == WriteCount(t) + (if e.WriteOrder? then 1 else 0)
    decreases |t|
  {
    if |t| > 0 {
      assert (t + [e])[1..] == t[1..] + [e];
      WriteCountSnoc(t[1..], e);
    }
  }

  lemma {:induction false} WriteCountChecks(t: seq<Effect>)
    requires forall e :: e in t ==> e.CheckStock?
    ensures WriteCount(t) == 0
    decreases |t|
  {
    if |t| > 0 {
      assert t[0] in t;
      assert forall e :: e in t[1..] ==> e in t;
      WriteCountChecks(t[1..]);
    }
  }

  // ---------------------------------------------------------------- cancel

  /** `CancelOrder` as written, where the `cancelled` event is built from
      whatever the repository update returned without a nil check: a nil
      order there is dereferenced when the event key is formatted. */
  datatype CancelRun = Finished(outcome: Outcome) | NilDereference(trace: seq<Effect>)

  function CancelOrderAsWritten(
    id: int64, read: Result<Option<Order>, string>, write: Result<Option<Order>, string>, publish: Option<string>)
    : CancelRun
  {
    match read
    case Failure(c) => Finished(Outcome(Failure(RetrieveFailed(c)), [ReadOrder(id)]))
    case Success(None) => Finished(Outcome(Failure(NotFound(id)), [ReadOrder(id)]))
    case Success(Some(o)) =>
      var t := [ReadOrder(id), WriteOrder(o.(status := "cancelled"))];
      match write
      case Failure(c) => Finished(Outcome(Failure(CancelFailed(c)), t))
      case Success(None) => NilDereference(t)
      case Success(Some(c)) =>
        var t' := t + [Publish(EventKey(Cancelled, c.id), c)];
        match publish
        case Some(err) => Finished(Outcome(Failure(PublishFailed(Cancelled, err)), t'))
        case None => Finished(Outcome(Success(c), t'))
  }

  /** `CancelOrder` with the nil check `UpdateOrder` already makes: a nil
      order from the repository update is reported as not found. */
  function CancelOrder(
    id: int64, read: Result<Option<Order>, string>, write: Result<Option<Order>, string>, publish: Option<string>)
    : (out: Outcome)
    ensures |out.trace| >= 1 && out.trace[0] == ReadOrder(id)
    ensures read.Failure? ==> out == Outcome(Failure(RetrieveFailed(read.error)), [ReadOrder(id)])
    ensures read == Success(None) ==> out == Outcome(Failure(NotFound(id)), [ReadOrder(id)])
    ensures read.Success? && read.value.Some? ==>
      |out.trace| >= 2 && out.trace[1] == WriteOrder(read.value.value.(status := "cancelled"))
    ensures read.Success? && read.value.Some? && write.Failure? ==> out.reply == Failure(CancelFailed(write.error))
    ensures read.Success? && read.value.Some? && write == Success(None) ==>
      out == Outcome(Failure(NotFound(id)), [ReadOrder(id), WriteOrder(read.value.value.(status := "cancelled"))])
    ensures read.Success? && read.value.Some? && write.Success? && write.value.Some? && publish.Some? ==>
      out.reply == Failure(PublishFailed(Cancelled, publish.value))
    ensures out.reply.Success? ==> write.Success? && write.value.Some? && out.reply.value == write.value.value
  {
    match read
    case Failure(c) => Outcome(Failure(RetrieveFailed(c)), [ReadOrder(id)])
    case Success(None) => Outcome(Failure(NotFound(id)), [ReadOrder(id)])
    case Success(Some(o)) =>
      var t := [ReadOrder(id), WriteOrder(o.(status := "cancelled"))];
      match write
      case Failure(c) => Outcome(Failure(CancelFailed(c)), t)
      case Success(None) => Outcome(Failure(NotFound(id)), t)
      case Success(Some(c)) =>
        var t' := t + [Publish(EventKey(Cancelled, c.id), c)];
        match publish
        case Some(err) => Outcome(Failure(PublishFailed(Cancelled, err)), t')
        case None => Outcome(Success(c), t')
  }

  /** Cancel of a missing or unreadable order neither writes nor publishes;
      otherwise it makes exactly one write, of the order with status
      "cancelled", and publishes afterwards only if that write returned an
      order. */
  lemma CancelSequencing(
    id: int64, read: Result<Option<Order>, string>, write: Result<Option<Order>, string>, publish: Option<string>)
    ensures
      var out := CancelOrder(id, read, write, publish);
      && (AttemptsWrite(out.trace) <==> read.Success? && read.value.Some?)
      && (AttemptsWrite(out.trace) ==> WriteCount(out.trace) == 1)
      && (Publishes(out.trace) <==> AttemptsWrite(out.trace) && write.Success? && write.value.Some?)
      && (Publishes(out.trace) ==>
        out.trace[|out.trace| - 1] == Publish(EventKey(Cancelled, write.value.value.id), write.value.value))
      && (Publishes(out.trace) ==> |out.trace| == 3)
      && PublishesOnlyLast(out.trace)
      && (out.reply.Success? <==> Publishes(out.trace) && publish.None?)
  {
    var out := CancelOrder(id, read, write, publish);
    if read.Success? && read.value.Some? {
      var w := WriteOrder(read.value.value.(status := "cancelled"));
      var t := [ReadOrder(id), w];
      assert w in t;
      assert WriteCount(t) == 1 by {
        assert t[1..] == [w];
        assert t[1..][1..] == [];
        assert WriteCount(t[1..][1..]) == 0;
        assert WriteCount(t[1..]) == 1;
      }
      if write.Success? && write.value.Some? {
        var p := Publish(EventKey(Cancelled, write.value.value.id), write.value.value);
        WriteCountSnoc(t, p);
        assert out.trace == t + [p];
        assert p in out.trace && w in out.trace;
      } else {
        assert out.trace == t;
      }
    }
  }

  /** The code as written panics exactly when a found order's update returns
      nil; in every other case it behaves like the corrected `CancelOrder`. */
  lemma CancelNilWritePanics(
    id: int64, read: Result<Option<Order>, string>, write: Result<Option<Order>, string>, publish: Option<string>)
    ensures CancelOrderAsWritten(id, read, write, publish).NilDereference?
      <==> read.Success? && read.value.Some? && write == Success(None)
    ensures CancelOrderAsWritten(id, read, write, publish).Finished? ==>
      CancelOrderAsWritten(id, read, write, publish).outcome == CancelOrder(id, read, write, publish)
    ensures CancelOrderAsWritten(id, read, write, publish).NilDereference? ==>
      CancelOrderAsWritten(id, read, write, publish).trace == CancelOrder(id, read, write, publish).trace
  {
  }
}

=== FILE: prelude.dfy ===
/** Value shapes of Go that the rest of the model shares: 64-bit integers,
    nil-able values and (value, error) results. */
module Prelude {

  /** Go's `int64`; `int` is taken to be 64 bits wide as well. */
  type int64 = x: int | -0x8000_0000_0000_0000 <= x < 0x8000_0000_0000_0000

  /** A Go pointer or error that may be nil. */
  datatype Option<+T> = None | Some(value: T)

  /** A Go `(T, error)` pair where exactly one side is meaningful. */
  datatype Result<+T, +E> = Success(value: T) | Failure(error: E)
}

=== FILE: repository.dfy ===
/** The in-memory order store: a map from order ID to order, threaded
    through the operations instead of living in a package variable. */
module Repository {
  import opened Prelude
  import opened Entity

  type Store = map<int64, Order>

  /** What the repository returns: an order or nil, and an error or nil. */
  datatype Reply = Reply(order: Option<Order>, err: Option<string>)

  /** The two seeded orders. */
  function InitialOrders(): (s: Store)
    ensures s.Keys == {1, 2}
    ensures forall id :: id in s ==> s[id].status == "created" && s[id].id == id && s[id].productRequests == []
  {
    map[
      1 := Order(1, 123, [], 2, 100.0, "created"),
      2 := Order(2, 456, [], 1, 50.0, "created")]
  }

  /** A present ID yields its order; an absent one yields no order and,
      contrary to the interface's comment, no error either. */
  function GetOrderByID(s: Store, id: int64): (r: Reply)
    ensures r.err == None
    ensures r.order.Some? <==> id in s
    ensures r.order.Some? ==> r.order.value == s[id]
  {
    if id in s then Reply(Some(s[id]), None) else Reply(None, None)
  }

  /** The ID `CreateOrder` assigns: one more than the number of stored orders. */
  function NextID(s: Store): int64
    requires |s| < 0x7FFF_FFFF_FFFF_FFFF
  {
    |s| + 1
  }

  /** Assigns `NextID`, stores the order under it (replacing whatever was
      there) and returns it; never fails. */
  function CreateOrder(s: Store, order: Order): (out: (Store, Reply))
    requires |s| < 0x7FFF_FFFF_FFFF_FFFF
    ensures out.1 == Reply(Some(order.(id := |s| + 1)), None)
    ensures out.0.Keys == s.Keys + {|s| + 1 as int64}
    ensures out.0[|s| + 1] == order.(id := |s| + 1)
    ensures forall id :: id in s && id != |s| + 1 ==> out.0[id] == s[id]
    ensures |out.0| == |s| + 1 <==> (|s| + 1) as int64 !in s
  {
    var id := NextID(s);
    var created := order.(id := id);
    (s[id := created], Reply(Some(created), None))
  }

  /** An upsert under `order.id`: inserts or replaces, returns the order,
      never fails. */
  function UpdateOrder(s: Store, order: Order): (out: (Store, Reply))
    ensures out.1 == Reply(Some(order), None)
    ensures out.0.Keys == s.Keys + {order.id}
    ensures out.0[order.id] == order
    ensures forall id :: id in s && id != order.id ==> out.0[id] == s[id]
  {
    (s[order.id := order], Reply(Some(order), None))
  }

  /** Removes a present ID; an absent ID is not an error. */
  function DeleteOrder(s: Store, id: int64): (out: (Store, Option<string>))
    ensures out.1 == None
    ensures out.0.Keys == s.Keys - {id}
    ensures forall k :: k in out.0 ==> out.0[k] == s[k]
    ensures id !in s ==> out.0 == s
  {
    if id !in s then (s, None) else (s - {id}, None)
  }

  /** Every order is stored under its own ID. */
  predicate WellKeyed(s: Store) {
    forall id :: id in s ==> s[id].id == id
  }

  /** Every operation keeps each order under its own ID. */
  lemma OperationsKeepWellKeyed(s: Store, order: Order, id: int64)
    requires WellKeyed(s)
    ensures WellKeyed(InitialOrders())
    ensures |s| < 0x7FFF_FFFF_FFFF_FFFF ==> WellKeyed(CreateOrder(s, order).0)
    ensures WellKeyed(UpdateOrder(s, order).0)
    ensures WellKeyed(DeleteOrder(s, id).0)
  {
  }

  /** Each write is visible to the next read. */
  lemma ReadYourWrites(s: Store, order: Order, id: int64)
    requires |s| < 0x7FFF_FFFF_FFFF_FFFF
    ensures
      var (s', r) := CreateOrder(s, order);
      GetOrderByID(s', |s| + 1) == Reply(Some(order.(id := |s| + 1)), None)
    ensures GetOrderByID(UpdateOrder(s, order).0, order.id) == Reply(Some(order), None)
    ensures GetOrderByID(DeleteOrder(s, id).0, id) == Reply(None, None)
    ensures id != order.id ==> GetOrderByID(UpdateOrder(s, order).0, id) == GetOrderByID(s, id)
  {
  }

  /** Update and delete are idempotent. */
  lemma Idempotent(s: Store, order: Order, id: int64)
    ensures UpdateOrder(UpdateOrder(s, order).0, order) == UpdateOrder(s, order)
    ensures DeleteOrder(DeleteOrder(s, id).0, id) == DeleteOrder(s, id)
  {
    assert s[order.id := order][order.id := order] == s[order.id := order];
  }

  /** The IDs in use are exactly 1..n. */
  predicate Dense(s: Store) {
    forall id: int64 :: id in s <==> 1 <= id <= |s|
  }

  /** While no order has been deleted the IDs stay dense, so `CreateOrder`
      always picks a free ID and the store grows by one. */
  lemma {:induction false} CreateKeepsDense(s: Store, order: Order)
    requires Dense(s) && |s| < 0x7FFF_FFFF_FFFF_FFFF
    ensures (|s| + 1) as int64 !in s
    ensures |CreateOrder(s, order).0| == |s| + 1
    ensures Dense(CreateOrder(s, order).0)
  {
    var s' := CreateOrder(s, order).0;
    assert |s'| == |s| + 1;
    forall id: int64
      ensures id in s' <==> 1 <= id <= |s'|
    {
    }
  }

  lemma InitialOrdersDense()
    ensures Dense(InitialOrders())
  {
    var s := InitialOrders();
    assert |s.Keys| == 2;
  }

  /** After a delete the next ID can already be taken: deleting order 1 from
      the seeded store leaves one order, so `CreateOrder` assigns ID 2 and
      overwrites order 2 instead of adding an order. */
  lemma CreateAfterDeleteOverwrites(order: Order)
    ensures
      var s := DeleteOrder(InitialOrders(), 1).0;
      var (s', r) := CreateOrder(s, order);
      && r.order == Some(order.(id := 2))
      && s'.Keys == {2}
      && |s'| == |s|
  {
    var s := DeleteOrder(InitialOrders(), 1).0;
    assert s.Keys == {2};
    assert |s| == 1;
  }
}

=== FILE: scenarios.dfy ===
/** Concrete runs of the order service on a two-item order: product 10
    (quantity 2) and product 20 (quantity 1). */
module Scenarios {
  import opened Prelude
  import opened Entity
  import opened Errors
  import opened Events
  import opened Decimal
  import opened Gateways
  import opened Validation
  import opened Fanout
  import opened OrderService

  function TwoItemOrder(): Order {
    Order(0, 123, [OrderRequest(10, 0, 2, 0.0, 0.0, 0.0), OrderRequest(20, 0, 1, 0.0, 0.0, 0.0)], 3, 0.0, "created")
  }

  function TwoPrices(): seq<PriceReply> {
    [Success(Pricing(10, 0.0, 0.0, 50.0)), Success(Pricing(20, 0.0, 0.0, 30.0))]
  }

  lemma CreatedKey()
    ensures EventKey(Created, 42) == "order.created.42"
  {
    assert NatDigits(4) == "4";
    assert NatDigits(42) == "42";
  }

  /** Stock 5 and 1 and prices 50 and 30: the order is stored under the
      assigned ID 42 and one `order.created.42` event follows the commit.
      The total the loop accumulates is 50 + 30 = 80 (the final price is
      added once per matching item, not multiplied by the quantity), and the
      returned order still carries the total it came in with. */
  lemma CreateTwoItems()
    ensures
      var o := TwoItemOrder();
      var avail := AvailabilityStream(o.productRequests, [Success(5), Success(1)], [0, 1]);
      var pricing := PricingStream(o.productRequests, TwoPrices(), [1, 0]);
      var out := CreateOrder(o, avail, pricing, TxReplies(Success(42), None, None), None);
      && Validate(o.productRequests, avail, pricing) == Passed(80.0)
      && out.reply == Success(o.(id := 42))
      && out.reply.value.totalPrice == 0.0
      && out.trace[|out.trace| - 1] == Publish("order.created.42", o.(id := 42))
  {
    var o := TwoItemOrder();
    var items := o.productRequests;
    var avail := AvailabilityStream(items, [Success(5), Success(1)], [0, 1]);
    var pricing := PricingStream(items, TwoPrices(), [1, 0]);
    assert avail == [AvailabilityChannel(10, true, None), AvailabilityChannel(20, true, None)];
    assert pricing == [PricingChannel(20, 30.0, 0.0, 0.0, None), PricingChannel(10, 50.0, 0.0, 0.0, None)];
    assert items[..1] == [items[0]] && [items[0]][..0] == [];
    assert MatchCount(items, 10) == 1 && MatchCount(items, 20) == 1;
    DistinctProductsTotal(items, pricing);
    assert pricing[1..] == [pricing[1]] && pricing[1..][1..] == [];
    assert QuotedSum(pricing[1..]) == 50.0;
    assert QuotedSum(pricing) == 80.0;
    CreateSequencing(o, avail, pricing, TxReplies(Success(42), None, None), None);
    CreatedKey();
  }

  /** Same order, but product 20 has no stock: the order is rejected with
      "insufficient stock for product ID 20", and nothing beyond the gateway
      calls happens. */
  lemma CreateOutOfStock()
    ensures
      var o := TwoItemOrder();
      var avail := AvailabilityStream(o.productRequests, [Success(5), Success(0)], [0, 1]);
      var pricing := PricingStream(o.productRequests, TwoPrices(), [0, 1]);
      var out := CreateOrder(o, avail, pricing, TxReplies(Success(42), None, None), None);
      && out == Outcome(Failure(InsufficientStock(20)), Dispatch(o.productRequests))
      && Message(out.reply.error) == "insufficient stock for product ID 20"
      && !AttemptsWrite(out.trace) && !Publishes(out.trace)
  {
    var o := TwoItemOrder();
    var items := o.productRequests;
    var avail := AvailabilityStream(items, [Success(5), Success(0)], [0, 1]);
    var pricing := PricingStream(items, TwoPrices(), [0, 1]);
    assert avail == [AvailabilityChannel(10, true, None), AvailabilityChannel(20, false, None)];
    assert pricing == [PricingChannel(10, 50.0, 0.0, 0.0, None), PricingChannel(20, 30.0, 0.0, 0.0, None)];
    assert Validate(items, avail, pricing) == Rejected(1, InsufficientStock(20));
    ShortageText();
    CreateSequencing(o, avail, pricing, TxReplies(Success(42), None, None), None);
  }

  lemma ShortageText()
    ensures Message(InsufficientStock(20)) == "insufficient stock for product ID 20"
  {
    assert NatDigits(2) == "2";
    assert NatDigits(20) == "20";
  }

  /** The re-check compares the status with "Paid" exactly: a "paid" order
      whose items are all out of stock is written and published, while the
      same order with status "Paid" is refused on its first item. */
  lemma PaidIsCaseSensitive()
    ensures
      var o := TwoItemOrder();
      var stock: seq<StockReply> := [Success(0), Success(0)];
      && UpdateOrder(o.(status := "paid"), stock, Success(Some(o)), None).reply == Success(o)
      && UpdateOrder(o.(status := "Paid"), stock, Success(Some(o)), None)
        == Outcome(Failure(InsufficientStock(10)), [CheckStock(10, 2)])
  {
    var o := TwoItemOrder();
    var stock: seq<StockReply> := [Success(0), Success(0)];
    var paid := o.(status := "Paid");
    assert "paid" != "Paid" by { assert "paid"[0] != "Paid"[0]; }
    assert FirstStockFailure(paid.productRequests, stock, 0) == Some((0, InsufficientStock(10)));
    assert paid.productRequests[..1] == [paid.productRequests[0]];
  }
}

=== FILE: sharding.dfy ===
/** The shard router: a shard index from a key by Go's `%`, which truncates
    toward zero, so the remainder takes the sign of the key. */
module Sharding {
  import opened Prelude

  datatype ShardRouter = ShardRouter(numShards: int64)

  /** Keeps the shard count as given, with no check that it is positive. */
  function NewShardRouter(numShard: int64): (r: ShardRouter)
    ensures r.numShards == numShard
  {
    ShardRouter(numShard)
  }

  function Abs(x: int): nat {
    if x < 0 then -x else x
  }

  /** Go's `/` on integers: the quotient truncated toward zero. */
  function TruncDiv(a: int, b: int): int
    requires b != 0
  {
    var q := Abs(a) / Abs(b);
    if (a < 0) == (b < 0) then q else -q
  }

  /** Go's `%` on integers: `a - TruncDiv(a, b) * b`. It is the unique
      remainder smaller than the divisor in size whose sign is the
      dividend's (see `TruncModUnique`). */
  function TruncMod(a: int, b: int): (r: int)
    requires b != 0
    ensures TruncDiv(a, b) * b + r == a
    ensures Abs(r) < Abs(b)
    ensures a >= 0 ==> r >= 0
    ensures a < 0 ==> r <= 0
  {
    var d := Abs(b);
    var q, m := Abs(a) / d, Abs(a) % d;
    assert Abs(a) == q * d + m;
    var p := if (a < 0) == (b < 0) then q else -q;
    assert p == TruncDiv(a, b);
    SignedQuotient(a, b, q);
    if a >= 0 then m else -m
  }

  /** The truncated quotient times the divisor is the Euclidean product of
      the magnitudes, with the dividend's sign. */
  lemma SignedQuotient(a: int, b: int, q: int)
    requires b != 0
    ensures (if (a < 0) == (b < 0) then q else -q) * b == if a >= 0 then q * Abs(b) else -(q * Abs(b))
  {
    if b < 0 {
      assert q * b == -(q * -b) && (-q) * b == q * -b;
    } else {
      assert (-q) * b == -(q * b);
    }
  }

  lemma {:induction false} MulAtLeast(k: int, d: int)
    requires k >= 1 && d > 0
    ensures k * d >= d
    decreases k
  {
    if k > 1 {
      MulAtLeast(k - 1, d);
      assert k * d == (k - 1) * d + d;
    }
  }

  /** A multiple of `d` strictly between `-d` and `d` is zero. */
  lemma SmallMultipleIsZero(k: int, d: int)
    requires d > 0 && -d < k * d < d
    ensures k == 0
  {
    if k > 0 {
      MulAtLeast(k, d);
    } else if k < 0 {
      MulAtLeast(-k, d);
    }
  }

  /** Euclidean division of a natural number is determined by its remainder range. */
  lemma DivModUnique(a: nat, d: int, q: int, r: int)
    requires d > 0 && q * d + r == a && 0 <= r < d
    ensures q == a / d && r == a % d
  {
    var q0, r0 := a / d, a % d;
    assert (q - q0) * d == r0 - r;
    SmallMultipleIsZero(q - q0, d);
  }

  lemma TruncModUnique(a: int, b: int, q: int, r: int)
    requires b != 0
    requires q * b + r == a && Abs(r) < Abs(b)
    requires a >= 0 ==> r >= 0
    requires a < 0 ==> r <= 0
    ensures r == TruncMod(a, b) && q == TruncDiv(a, b)
  {
    var d := Abs(b);
    var qa := if (a < 0) == (b < 0) then q else -q;
    if b < 0 {
      assert q * b == (-q) * d;
    } else {
      assert q * b == q * d;
    }
    if a >= 0 {
      assert qa * d + r == a;
      DivModUnique(a, d, qa, r);
    } else {
      assert qa * d == -(q * b);
      assert qa * d + (-r) == -a;
      DivModUnique(-a, d, qa, -r);
    }
  }

  /** `int(key % int64(sr.NumShards))`. A zero shard count is a run-time
      division-by-zero panic in Go, so it is excluded. */
  function GetShard(sr: ShardRouter, key: int64): (r: int64)
    requires sr.numShards != 0
    ensures r == TruncMod(key, sr.numShards)
    ensures key >= 0 && sr.numShards > 0 ==> 0 <= r < sr.numShards
    ensures key < 0 && sr.numShards > 0 ==> -sr.numShards < r <= 0
  {
    TruncMod(key, sr.numShards)
  }

  /** Non-negative keys one shard count apart land on the same shard. */
  lemma ShardPeriodic(sr: ShardRouter, key: int64)
    requires sr.numShards != 0 && key >= 0 && key + sr.numShards >= 0
    requires key + sr.numShards < 0x8000_0000_0000_0000
    ensures GetShard(sr, (key + sr.numShards) as int64) == GetShard(sr, key)
  {
    var n := sr.numShards as int;
    var r := GetShard(sr, key);
    var q := TruncDiv(key, n);
    var q' := q + 1;
    assert q' * n + r == key + n;
    TruncModUnique(key + n, n, q', r);
  }

  /** With 4 shards, key -5 goes to shard -1, where Dafny's Euclidean `%`
      gives 3. */
  lemma NegativeKeyShard()
    ensures GetShard(ShardRouter(4), -5) == -1 && (-5) % 4 == 3
  {
    ShardOfNegatedKey(ShardRouter(4), 5);
    assert GetShard(ShardRouter(4), 5) == 1 by {
      TruncModUnique(5, 4, 1, 1);
    }
  }

  /** Negating the key negates the shard, which Dafny's Euclidean `%` would
      not do. */
  lemma ShardOfNegatedKey(sr: ShardRouter, key: int64)
    requires sr.numShards != 0 && key > -0x8000_0000_0000_0000
    ensures GetShard(sr, -key) == -GetShard(sr, key)
  {
    TruncModOfNegation(key, sr.numShards);
  }

  lemma TruncModOfNegation(a: int, b: int)
    requires b != 0
    ensures TruncMod(-a, b) == -TruncMod(a, b)
  {
    var q, r := TruncDiv(a, b), TruncMod(a, b);
    NegatedProduct(q, b, r, a);
    TruncModUnique(-a, b, -q, -r);
  }

  lemma NegatedProduct(q: int, b: int, r: int, a: int)
    requires q * b + r == a
    ensures (-q) * b + (-r) == -a
  {
    assert (-q) * b == -(q * b);
  }

  /** The router accepts any shard count: with -4 shards the sign of the
      divisor is ignored and keys 5 and -5 go to shards 1 and -1. */
  lemma RouterUnvalidated()
    ensures NewShardRouter(-4).numShards == -4
    ensures GetShard(NewShardRouter(-4), 5) == 1 && GetShard(NewShardRouter(-4), -5) == -1
  {
  }
}

=== FILE: validation.dfy ===
/** The drain loop of `CreateOrder`: N reads from each channel, paired by
    arrival position, a fixed error priority within a pair, and a total
    accumulated by scanning the line items for the priced product ID. */
module Validation {
  import opened Prelude
  import opened Entity
  import opened Errors

  /** The three checks on the i-th (availability, pricing) pair, in the order
      the source makes them; `None` when the pair passes. */
  function PairError(a: AvailabilityChannel, p: PricingChannel): Option<Error> {
    if a.error.Some? then Some(StockCheckFailed(a.productID, a.error.value))
    else if !a.available then Some(InsufficientStock(a.productID))
    else if p.error.Some? then Some(PricingFailed(p.productID, p.error.value))
    else None
  }

  /** Every pair in positions lo..hi passes. */
  predicate PairsPass(avail: seq<AvailabilityChannel>, pricing: seq<PricingChannel>, lo: nat, hi: nat)
    requires lo <= hi <= |avail| && hi <= |pricing|
  {
    forall j :: lo <= j < hi ==> PairError(avail[j], pricing[j]).None?
  }

  /** How many line items carry product `pid`. */
  function MatchCount(items: seq<OrderRequest>, pid: int64): (n: nat)
    ensures n <= |items|
    ensures n == 0 <==> forall k :: 0 <= k < |items| ==> items[k].productID != pid
  {
    if |items| == 0 then 0
    else MatchCount(items[..|items| - 1], pid) + (if items[|items| - 1].productID == pid then 1 else 0)
  }

  /** What one pricing result adds to the total: its final price once for
      every line item with the same product ID. */
  function Contribution(items: seq<OrderRequest>, p: PricingChannel): real {
    (MatchCount(items, p.productID) as real) * p.finalPrice
  }

  /** The total accumulated over the given pricing results. */
  function PricedTotal(items: seq<OrderRequest>, pricing: seq<PricingChannel>): real {
    if |pricing| == 0 then 0.0 else Contribution(items, pricing[0]) + PricedTotal(items, pricing[1..])
  }

  /** The sum of the final prices the pricing results quote. */
  function QuotedSum(pricing: seq<PricingChannel>): real {
    if |pricing| == 0 then 0.0 else pricing[0].finalPrice + QuotedSum(pricing[1..])
  }

  datatype Validation = Passed(total: real) | Rejected(at: nat, error: Error)

  /** The drain loop from position `i` on, with `acc` accumulated so far. */
  function ValidateFrom(
    items: seq<OrderRequest>, avail: seq<AvailabilityChannel>, pricing: seq<PricingChannel>, i: nat, acc: real)
    : (v: Validation)
    requires |avail| == |pricing| && i <= |avail|
    ensures v.Rejected? ==>
      && i <= v.at < |avail|
      && PairsPass(avail, pricing, i, v.at)
      && PairError(avail[v.at], pricing[v.at]) == Some(v.error)
    ensures v.Passed? ==>
      && PairsPass(avail, pricing, i, |avail|)
      && v.total == acc + PricedTotal(items, pricing[i..])
    decreases |avail| - i
  {
    if i == |avail| then Passed(acc)
    else match PairError(avail[i], pricing[i])
      case Some(e) => Rejected(i, e)
      case None =>
        assert pricing[i..][1..] == pricing[i + 1..];
        ValidateFrom(items, avail, pricing, i + 1, acc + Contribution(items, pricing[i]))
  }

  /** Validation of a whole order: it is rejected at the first failing pair,
      with that pair's error, and otherwise passes with the priced total. */
  function Validate(items: seq<OrderRequest>, avail: seq<AvailabilityChannel>, pricing: seq<PricingChannel>)
    : (v: Validation)
    requires |avail| == |items| && |pricing| == |items|
    ensures v.Passed? <==> PairsPass(avail, pricing, 0, |items|)
    ensures v.Rejected? ==>
      && v.at < |items|
      && PairsPass(avail, pricing, 0, v.at)
      && PairError(avail[v.at], pricing[v.at]) == Some(v.error)
      && v.error.IsRejection()
    ensures v.Passed? ==> v.total == PricedTotal(items, pricing)
  {
    assert pricing[0..] == pricing;
    ValidateFrom(items, avail, pricing, 0, 0.0)
  }

  lemma {:induction false} PricedTotalSnoc(items: seq<OrderRequest>, pricing: seq<PricingChannel>, p: PricingChannel)
    ensures PricedTotal(items, pricing + [p]) == PricedTotal(items, pricing) + Contribution(items, p)
    decreases |pricing|
  {
    if |pricing| > 0 {
      assert (pricing + [p])[1..] == pricing[1..] + [p];
      PricedTotalSnoc(items, pricing[1..], p);
    }
  }

  /** The inner `for _, productRequest := range order.ProductRequests` scan:
      the loop variable is a copy, so the pricing copied into it is dropped at
      the end of each iteration and only `totalPrice` survives. */
  method AddMatchingPrices(items: seq<OrderRequest>, pricingResult: PricingChannel, before: real)
    returns (totalPrice: real)
    ensures totalPrice == before + Contribution(items, pricingResult)
  {
    totalPrice := before;
    var j := 0;
    while j < |items|
      invariant j <= |items|
      invariant totalPrice == before + (MatchCount(items[..j], pricingResult.productID) as real) * pricingResult.finalPrice
    {
      var productRequest := items[j];
      ghost var count := MatchCount(items[..j], pricingResult.productID);
      assert items[..j + 1][..j] == items[..j];
      if productRequest.productID == pricingResult.productID {
        productRequest := productRequest.(
          discount := pricingResult.discount,
          markUp := pricingResult.markUp,
          finalPrice := pricingResult.finalPrice);
        assert MatchCount(items[..j + 1], pricingResult.productID) == count + 1;
        assert ((count + 1) as real) * pricingResult.finalPrice == (count as real) * pricingResult.finalPrice + pricingResult.finalPrice;
        totalPrice := totalPrice + productRequest.finalPrice;
      }
      j := j + 1;
    }
    assert items[..|items|] == items;
  }

  /** The outer drain loop exactly as the source writes it. */
  method ValidateOrder(items: seq<OrderRequest>, avail: seq<AvailabilityChannel>, pricing: seq<PricingChannel>)
    returns (v: Validation)
    requires |avail| == |items| && |pricing| == |items|
    ensures v == Validate(items, avail, pricing)
  {
    var totalPrice := 0.0;
    var i := 0;
    while i < |items|
      invariant i <= |items|
      invariant totalPrice == PricedTotal(items, pricing[..i])
      invariant ValidateFrom(items, avail, pricing, i, totalPrice) == Validate(items, avail, pricing)
    {
      var availabilityResult := avail[i];
      var pricingResult := pricing[i];
      if availabilityResult.error.Some? {
        return Rejected(i, StockCheckFailed(availabilityResult.productID, availabilityResult.error.value));
      }
      if !availabilityResult.available {
        return Rejected(i, InsufficientStock(availabilityResult.productID));
      }
      if pricingResult.error.Some? {
        return Rejected(i, PricingFailed(pricingResult.productID, pricingResult.error.value));
      }
      totalPrice := AddMatchingPrices(items, pricingResult, totalPrice);
      assert pricing[..i + 1] == pricing[..i] + [pricingResult];
      PricedTotalSnoc(items, pricing[..i], pricingResult);
      i := i + 1;
    }
    return Passed(totalPrice);
  }

  /** Within a pair, a failed availability result decides the error whatever
      the pricing result says, and the error names the availability
      result's product ID; the pricing result is consulted only after both
      availability checks pass. */
  lemma AvailabilityFirst(a: AvailabilityChannel, p: PricingChannel, q: PricingChannel)
    ensures a.error.Some? || !a.available ==>
      && PairError(a, p) == PairError(a, q)
      && PairError(a, p).Some?
      && PairError(a, p).value.productID == a.productID
    ensures a.error.None? && a.available ==>
      (PairError(a, p).Some? <==> p.error.Some?)
      && (PairError(a, p).Some? ==> PairError(a, p) == Some(PricingFailed(p.productID, p.error.value)))
  {
  }

  /** When every pricing result names a product that exactly one line item
      carries, the total is the sum of the quoted final prices. */
  lemma {:induction false} DistinctProductsTotal(items: seq<OrderRequest>, pricing: seq<PricingChannel>)
    requires forall k :: 0 <= k < |pricing| ==> MatchCount(items, pricing[k].productID) == 1
    ensures PricedTotal(items, pricing) == QuotedSum(pricing)
    decreases |pricing|
  {
    if |pricing| > 0 {
      assert MatchCount(items, pricing[0].productID) == 1;
      DistinctProductsTotal(items, pricing[1..]);
    }
  }

  /** Two line items for the same product, each priced once, contribute four
      times the quoted price: each pricing result is added for every match. */
  lemma DuplicateProductCountedTwice()
    ensures
      var r := OrderRequest(7, 0, 1, 0.0, 0.0, 0.0);
      var p := PricingChannel(7, 10.0, 0.0, 0.0, None);
      PricedTotal([r, r], [p, p]) == 40.0 && QuotedSum([p, p]) == 20.0
  {
    var r := OrderRequest(7, 0, 1, 0.0, 0.0, 0.0);
    var p := PricingChannel(7, 10.0, 0.0, 0.0, None);
    assert [r, r][..1] == [r];
    assert [r][..0] == [];
    assert MatchCount([r], 7) == 1;
    assert MatchCount([r, r], 7) == 2;
    assert Contribution([r, r], p) == 20.0;
    assert [p, p][1..] == [p];
    assert [p][1..] == [];
    assert PricedTotal([r, r], [p]) == 20.0;
    assert QuotedSum([p]) == 10.0;
  }

  /** Pairs are formed by arrival position, not by product ID: here the first
      availability result is for product 10, the first pricing result is a
      failure for product 20, and the order is rejected naming product 20. */
  lemma PairedByPosition()
    ensures
      var avail := [AvailabilityChannel(10, true, None), AvailabilityChannel(20, true, None)];
      var pricing := [PricingChannel(20, 0.0, 0.0, 0.0, Some("timeout")), PricingChannel(10, 5.0, 0.0, 0.0, None)];
      var items := [OrderRequest(10, 0, 1, 0.0, 0.0, 0.0), OrderRequest(20, 0, 1, 0.0, 0.0, 0.0)];
      Validate(items, avail, pricing) == Rejected(0, PricingFailed(20, "timeout"))
  {
  }
}
